=== FILE: README.md ===
# Cacheable memoization engine, modelled in Dafny

This project models the engine behind the `Cacheable` decorator of
ngx-cacheable: the replacement function that every call to a memoized method
goes through, together with the cache-bust subscription. One call site owns:

- a **cache table**: an ordered sequence of pairs (parameters, response,
  created time or null);
- a **pending table**: an ordered sequence of in-flight invocations, each
  holding an opaque handle to the producer's replayable stream;
- an optional **persistence mirror**: a store that is either not configured,
  or configured and holding a saved table or null.

The model is a functional state machine (`Engine`): `Call` decides between a
cached response, an in-flight handle and a new producer invocation; `Settle`
runs the `tap` step (should-cache decision, shift, append, mirror) and then
the `finalize` step (drop the pending entry); `Fail` runs `finalize` alone;
`Bust` empties both tables and nulls the store. `GlobalBust` applies `Bust`
to every subscribed call site. The wall clock is an explicit `now`
parameter, and the handle a producer returns is a parameter of `Call`. The
resolver and the should-cache decider are function-valued fields of the
configuration. `DefaultResolver` is plain equality.

Options that JavaScript tests for truthiness are modelled as such. In
`maxAge` and `maxCacheCount`, 0 stands for "not configured", because a
zero and an absent option take the same branches.

The engine locates a pair by `indexOf` and removes it with `splice(index, 1)`.
The model keeps JavaScript's meaning, where index -1 removes the *last*
element. Index -1 arises in these places, each stated as a lemma:

- An expired pair read from the store is a freshly deserialized copy, so
  `indexOf` answers -1 and the last in-memory pair is removed instead. The
  store keeps the expired pair (`Persistence.PersistedExpiryDropsLastPair`).
- `finalize` removes the first pending entry the resolver matches against
  the invocation's arguments, or the last pending entry when none matches.
  Under a resolver that does not match arguments against themselves, the
  entry an invocation appended is found only through -1. While its entry is
  still the last one and no older entry matches, the pending table is still
  restored (`Coalescing.FinalizeRemovesAppended`). Once a later call has
  appended after it, -1 removes that later call's entry and the invocation's
  own stays behind (`Coalescing.FinalizeDropsLaterEntry`, and
  `Scenarios.RerouteFailureDropsLaterEntry` with the rerouting resolver of the
  test suite).
- A bust empties the pending table, so an invocation that fails after it
  no longer has an entry of its own. Its `finalize` removes the entry of a
  call made after the bust: the first one the resolver matches against the
  stale arguments, or else the last one. The next such call then invokes the
  producer a second time (`Busting.StaleSettlementAfterBust`). If the stale
  invocation succeeds instead, `tap` (line 123) runs before `finalize`: the
  pre-bust response goes into the emptied table (and the store) while
  `finalize` removes the post-bust entry, so the next call that the resolver
  matches against the stale arguments is served the pre-bust response
  (`Busting.StaleSuccessAfterBustRefills`,
  `Busting.StaleSuccessAfterBustIsServed`). A bust therefore empties both
  tables only until an invocation started before it settles.

The deserialized copy has one more effect, which does not involve `indexOf`:
sliding renewal of a persisted pair restamps only that copy, so the store
keeps the original time (`Persistence.PersistedRenewalIsLost`).

The two store effects describe lines 74 and 80 under a store that gives
timestamps back as timestamps. With the JSON store the program actually
uses, a dated pair read from the store never reaches either line: see
"## Left out".

The cache table does not always hold at most one pair per argument set. After
a bust, two invocations for equal arguments can be in flight at once. If the
table has room, both settle into it (`Busting.DuplicateKeysReachable`). The
engine never checks for an existing match before appending.

## Model

| member | source | states |
|---|---|---|
| Arrays.FirstMatch | cacheable.decorator.ts:47-53 | the lookup returns the first position whose stored parameters the resolver matches against the new ones; it returns none exactly when no position matches |
| Arrays.SpliceOne | cacheable.decorator.ts:74 | `splice(start, 1)` removes the element at a valid start; a start of -1 removes the last element; a start past the end removes nothing |
| Arrays.Shift | cacheable.decorator.ts:121 | `shift` drops the front element of a non-empty table and leaves an empty one empty |
| Engine.LookUp | cacheable.decorator.ts:47-62 | with no store, the lookup finds the first matching in-memory pair; with a store, only the saved table is searched; a null store is a miss whatever the memory holds |
| Engine.AgeCheck | cacheable.decorator.ts:66-82 | the lookup survives only when its pair is not expired; an unexpired hit keeps the table's keys, and a lookup that missed leaves the table as it was |
| Engine.Call | cacheable.decorator.ts:84-146 | a live cache pair wins and returns its response, deferred when `async` is set; failing that, the first matching pending entry's handle is returned; only otherwise is the producer invoked and exactly one pending entry appended; a call never writes the store and never shrinks the table by more than one |
| Engine.Tap | cacheable.decorator.ts:105-131 | a refused response changes nothing; an accepted one is appended last, stamped with `now` only under an age limit; the old pairs kept are the newest ones, in order; the table keeps its length exactly when it was non-empty and the shift test fires; the store then mirrors the whole table |
| Engine.Finalize | cacheable.decorator.ts:93-103 | removes the first pending entry the resolver matches; with no match it removes the last pending entry; the cache table and store are untouched |
| Engine.Settle | cacheable.decorator.ts:93-131 | a refused response leaves the table and the store unchanged; an accepted one ends up last in the table; the pending table is finalized |
| Engine.Fail | cacheable.decorator.ts:93-103 | a failure leaves the cache table and the store unchanged and removes exactly one pending entry when there is one |
| Engine.Bust | cacheable.decorator.ts:32-38 | both tables end up empty; a configured store is set to null; an absent one stays absent |
| Engine.GlobalBust | cacheable.decorator.ts:27-32 | the global notifier empties the tables of every subscribed call site |
| Bounds.SettleKeepsBound | cacheable.decorator.ts:115-123 | a settlement keeps the table within one pair, or within `maxCacheCount` pairs when a count above one is configured |
| Bounds.EvictsOnlyWhenFull | cacheable.decorator.ts:115-127 | an accepted settlement drops the oldest pair exactly when the table is at its limit; it keeps all other pairs in order and appends the new pair at the back |
| Bounds.DefaultKeepsOnlyLatest | cacheable.decorator.ts:115-121 | with no count, or a count of one, the table holds only the latest settled pair |
| Bounds.ApplyKeepsBound | cacheable.decorator.ts:27-131 | each single event (call, settlement, failure or bust) preserves the size bound |
| Bounds.RunKeepsBound | cacheable.decorator.ts:45-148 | the size bound holds after any sequence of events |
| Bounds.FreshSiteStaysBounded | cacheable.decorator.ts:20-21 | every state a call site reaches from its empty tables respects the size bound |
| Coalescing.HitStaysServed | cacheable.decorator.ts:66-86 | after a cache hit, the pair (renewed or not) still serves the same arguments at the same instant, whatever the resolver |
| Coalescing.CallCovers | cacheable.decorator.ts:84-146 | when the resolver matches the arguments against themselves (the default resolver does), after any call with some arguments, a second call with them at the same instant is answered by the cache or by a pending entry |
| Coalescing.CoveredCallStaysCovered | cacheable.decorator.ts:84-92 | a covered call does not invoke the producer and leaves its arguments covered, whatever the resolver: a pending hit leaves the pending table as it was and a cache hit leaves its pair serving |
| Coalescing.CallInvokesUnlessCovered | cacheable.decorator.ts:84-146 | a call invokes the producer exactly when neither table covers its arguments; when the resolver matches the arguments against themselves (the default resolver does), it leaves them covered |
| Coalescing.CoveredCallsNeverInvoke | cacheable.decorator.ts:84-88 | once covered, no run of further equal calls at the same instant invokes the producer, whatever the resolver |
| Coalescing.RepeatedCallsInvokeOnce | cacheable.decorator.ts:84-146 | when the resolver matches the arguments against themselves (the default resolver does), back-to-back equal calls invoke the producer once when the first is not covered, and zero times when it is |
| Coalescing.FiveHundredCallsInvokeOnce | promise.cacheable.decorator.spec.ts:203-213 | 500 equal calls on a fresh call site invoke the producer exactly once |
| Coalescing.FinalizeRemovesAppended | cacheable.decorator.ts:97-103 | when no older pending entry matches the arguments, `finalize` removes the entry for them that was appended last, whether the resolver finds it (its own position) or not (index -1, the last entry) |
| Coalescing.FinalizeDropsLaterEntry | cacheable.decorator.ts:97-103 | under a resolver that matches neither of two invoking calls' arguments against the first's, the first invocation's failure removes the second call's pending entry through index -1 and keeps its own |
| Coalescing.FinalizeUndoesInvoke | cacheable.decorator.ts:93-103 | when nothing was in flight, `finalize` after an invoking call removes the entry it appended and restores the pending table; it finds that entry at its own position, or through index -1 when the resolver does not match the arguments against themselves |
| Coalescing.SettlementClearsPending | cacheable.decorator.ts:93-104 | after an invoking call, its settlement (success or failure) restores the pending table to what it was before the call, for every resolver, including one that does not match the arguments against themselves |
| Coalescing.FailUndoesInvoke | cacheable.decorator.ts:93-104 | when nothing matched, an invoking call followed by its failure restores the whole state, for every resolver, so the next call retries the producer |
| Coalescing.RefusedResponseIsNotServed | cacheable.decorator.ts:111-114 | a response the decider refuses leaves the state as before the call, for every resolver, and the next equal call invokes the producer again |
| Coalescing.SettledPairIsFound | cacheable.decorator.ts:123-130 | after an accepted settlement, the lookup lands on the new pair when no older pair matched, with or without a store |
| Coalescing.SettledResponseServedUntilMaxAge | cacheable.decorator.ts:66-70 | a settled response is served to a later equal call exactly when no age limit is set or its age is at most `maxAge` |
| Expiry.ExpiredPairIsRemoved | cacheable.decorator.ts:66-75 | an expired in-memory pair is spliced out at its own position and the call is not a cache hit |
| Expiry.SlidingRenewalRestartsAge | cacheable.decorator.ts:76-81 | with sliding expiration, a served in-memory pair is restamped with the call's time; no other pair changes; later calls are served while within `maxAge` of the renewal |
| Expiry.HitWithoutRenewalChangesNothing | cacheable.decorator.ts:76-86 | without sliding expiration, or when the hit came from the store, a cache hit leaves the state unchanged |
| Expiry.UndatedPairNeverExpires | cacheable.decorator.ts:66 | a pair stored without a time is served at every instant |
| Persistence.MirrorOverridesMemory | cacheable.decorator.ts:54-62 | with a store configured, the in-memory table has no influence on what a call returns; a null store always misses |
| Persistence.SettleMirrorsTable | cacheable.decorator.ts:128-130 | an accepted settlement overwrites a configured store with the whole new table |
| Persistence.PersistedExpiryDropsLastPair | cacheable.decorator.ts:74 | an expired persisted pair removes the last in-memory pair and leaves the store as it was, so the next lookup lands on the same expired pair |
| Persistence.PersistedRenewalIsLost | cacheable.decorator.ts:76-81 | sliding renewal of a persisted pair does not reach the store, so the pair expires by its original age |
| Persistence.PersistedRenewalExample | cacheable.decorator.ts:54-81 | with maxAge 1500, a pair saved at time 0 is served at 1000 and invokes the producer at 2000 despite the renewal |
| Busting.BustIdempotent | cacheable.decorator.ts:32-38 | busting twice equals busting once |
| Busting.CallAfterBustInvokes | cacheable.decorator.ts:32-38 | after a bust, the next call invokes the producer whatever the arguments and the prior state |
| Busting.GlobalBustForcesInvocation | promise.cacheable.decorator.spec.ts:540-552 | after a global bust, the next call on every call site invokes its producer |
| Busting.StaleSettlementAfterBust | cacheable.decorator.ts:97-103 | an invocation failing after a bust removes the pending entry of a post-bust call, so a second invocation for those arguments starts while one is in flight |
| Busting.StaleSuccessAfterBustRefills | cacheable.decorator.ts:97-131 | an invocation succeeding after a bust puts its pre-bust response into the emptied table, as its only pair, and into the store when one is configured, and its `finalize` empties the pending table of the post-bust call's entry |
| Busting.StaleSuccessAfterBustIsServed | cacheable.decorator.ts:47-86 | after that refill, the next call whose arguments the resolver matches against the stale ones is a cache hit of the pre-bust response, not an invocation |
| Busting.DuplicateKeysReachable | cacheable.decorator.ts:115-127 | with room for two pairs, a bust between two equal calls leaves the table holding two pairs for equal arguments |
| Scenarios.SettlementsAppend | promise.cacheable.decorator.spec.ts:272-305 | with `maxCacheCount` 5, settlements into a table with room append their pairs in call order, so five settlements on an empty table fill it |
| Scenarios.FirstArgumentServedBeforeEviction | promise.cacheable.decorator.spec.ts:285-289 | on the table five settlements leave, `test1` is served from the cache without invoking the producer; the test does not await the five settlements before this call, so there it may be a pending entry that answers instead |
| Scenarios.SixthSettlementEvictsFirst | promise.cacheable.decorator.spec.ts:307-331 | a sixth distinct settlement evicts `test1` and keeps `test2`..`test5` in order before `test6` |
| Scenarios.RetainedArgumentServed | promise.cacheable.decorator.spec.ts:317-335 | after the sixth settlement, the retained argument `test2` is still served from the cache |
| Scenarios.SeventhSettlementEvictsSecond | promise.cacheable.decorator.spec.ts:337-343 | a seventh distinct settlement evicts `test2` and keeps `test3`..`test6` in order before `test7` |
| Scenarios.EvictedArgumentMisses | promise.cacheable.decorator.spec.ts:345-349 | after the seventh settlement, the evicted argument `test2` invokes the producer again |
| Scenarios.UndatedMatchIsServed | cacheable.decorator.ts:47-53 | on a table without a store, a call whose first match carries no time is served that pair's response |
| Scenarios.UnmatchedCallInvokes | cacheable.decorator.ts:84-92 | on a table without a store or pending entries, a call that matches nothing invokes the producer |
| Scenarios.SettleOnIdleSite | cacheable.decorator.ts:115-127 | with no count, no store and nothing in flight, an accepted settlement leaves exactly its own pair in the table and nothing pending |
| Scenarios.TwoSettlementsKeepLatest | cacheable.decorator.ts:115-127 | with no count, no store and nothing in flight, two accepted settlements in a row leave only the later pair |
| Scenarios.RerouteTable | promise.cacheable.decorator.spec.ts:388-398 | with the rerouting resolver, settling `test1` and then `test2` leaves a table holding only the `test2` pair |
| Scenarios.RerouteScenario | promise.cacheable.decorator.spec.ts:387-414 | on that table, a resolver that looks only at a flag of the new arguments serves the latest response to a flagged call and invokes the producer for an unflagged one |
| Scenarios.RerouteFailureDropsLaterEntry | cacheable.decorator.ts:97-103 | with the test suite's rerouting resolver, after unflagged calls for `a` then `b` both invoke, the failure of `a`'s invocation leaves exactly `a`'s own pending entry |
| Scenarios.UnflaggedCallsAreNotCoalesced | promise.cacheable.decorator.spec.ts:86-88 | the rerouting resolver never matches an unflagged call against its own pending entry, so two equal unflagged calls at the same instant each invoke the producer |

## Left out

- The rxjs plumbing (`shareReplay`, the `finalize` and `tap` operators, `of`, `merge`, `delay(0)`) is not modelled. A stream is an opaque handle, and the `async` option appears only as the `deferred` flag of a cache hit. It changes delivery timing, not the value.
- Settlement is modelled for a producer that delivers one value. A stream that emits several values would run the `tap` step once per value.
- The wall clock is not modelled. `new Date()` becomes the `now` argument of each transition.
- `DomPersistenceAdapter` and JSON (de)serialisation are not modelled. The store is an abstract optional table. Malformed saved text makes `JSON.parse` throw; this is not modelled.
- Persistence.PersistedExpiryDropsLastPair, Persistence.PersistedRenewalIsLost, Persistence.PersistedRenewalExample, Coalescing.SettledResponseServedUntilMaxAge, Expiry.HitWithoutRenewalChangesNothing: with a store configured, these describe lines 66-80 under a store that keeps timestamps. In the program as written, `created` comes back from `JSON.parse` (line 55) as the string `JSON.stringify` wrote (line 129), so with `maxAge` set any dated persisted hit throws a TypeError at `created.getTime()` on line 68, before line 74 or 80 runs. The thrown error is not modelled.
- The store name is not modelled. Call sites that share a store name would overwrite each other's saved table. Each call site here has its own store.
- The argument normaliser (`JSON.parse(JSON.stringify(...))`, line 46) is not modelled. It is a deep copy made by a foreign serialiser, so parameters are taken to be immutable values. An `undefined` argument is passed through as is, not replaced by the parameter's default. The test at promise.cacheable.decorator.spec.ts:574-575 relies on this.
- Decorator installation and the property-descriptor mechanics (lines 10-19 and 150) are not modelled.
- The body of the default resolver is not part of this model. Its declaration is the only part available. `DefaultResolver` takes it to be structural equality.
- The `hashcache` option is not modelled. A resolver is a parameter of the configuration.
- The promise-returning decorator exercised by the test file is not part of this model. Its tests are used only as scenarios, on the assumption that its engine behaves like this decorator's.
- A resolver that throws is not modelled. Resolvers are total functions.
- Numeric options are modelled as `nat`. A negative `maxAge` is truthy in JavaScript and makes every dated pair expire at line 68; negative options are not modelled.
- A producer that throws synchronously at line 90 pushes no pending entry and the error reaches the caller. `Call` always appends a pending entry when it invokes; a synchronous throw is not modelled.

=== FILE: arrays.dfy ===
/** The JavaScript array primitives the memoization engine is built from
    (`find`, `indexOf`, `splice(start, 1)`, `shift`), stated over immutable
    sequences. */
module Arrays {
  import opened Wrappers

  /** `find` with the engine's two-argument resolver: the position of the
      first key `k` for which `resolver(k, q)` holds, or None when there is none. */
  function FirstMatch<K>(resolver: (K, K) -> bool, keys: seq<K>, q: K): (r: Option<nat>)
    ensures r.Some? ==> r.value < |keys| && resolver(keys[r.value], q)
    ensures r.Some? ==> forall j :: 0 <= j < r.value ==> !resolver(keys[j], q)
    ensures r.None? <==> forall j :: 0 <= j < |keys| ==> !resolver(keys[j], q)
  {
    if |keys| == 0 then None
    else if resolver(keys[0], q) then Some(0)
    else match FirstMatch(resolver, keys[1..], q)
      case None => None
      case Some(i) => Some(i + 1)
  }

  /** What `indexOf` answers for a lookup result: its index, or -1 when absent. */
  function IndexOrMinusOne(o: Option<nat>): int
  {
    match o
    case Some(i) => i
    case None => -1
  }

  /** `splice(start, 1)`: removes one element; a negative start counts from
      the end and is clamped at the front; a start past the end removes nothing. */
  function SpliceOne<T>(xs: seq<T>, start: int): (r: seq<T>)
    ensures 0 <= start < |xs| ==> r == xs[..start] + xs[start + 1..]
    ensures start == -1 && |xs| > 0 ==> r == xs[..|xs| - 1]
    ensures |xs| <= start ==> r == xs
    ensures |xs| == 0 ==> r == []
    ensures |r| == if |xs| == 0 || |xs| <= start then |xs| else |xs| - 1
  {
    var k := if start >= 0 then start else if |xs| + start >= 0 then |xs| + start else 0;
    if k < |xs| then xs[..k] + xs[k + 1..] else xs
  }

  /** `shift`: drops the front element, if there is one. */
  function Shift<T>(xs: seq<T>): (r: seq<T>)
    ensures |xs| > 0 ==> r == xs[1..] && |r| == |xs| - 1
    ensures |xs| == 0 ==> r == []
  {
    if |xs| == 0 then xs else xs[1..]
  }
}

=== FILE: bounds.dfy ===
/** The size of the cache table and the order in which pairs leave it. */
module Bounds {
  import opened CacheState
  import opened Engine

  /** A settlement keeps the table within `Cap`: one pair with no count or a
      count of one, `maxCacheCount` pairs otherwise. */
  lemma SettleKeepsBound<P, R, H>(c: Config<P, R>, s: State<P, R, H>, q: P, response: R, now: nat)
    requires Bounded(c, s)
    ensures Bounded(c, Settle(c, s, q, response, now))
  {
    var t := Tap(c, s, q, response, now);
    if Accepts(c, response) && |t.cache| == |s.cache| + 1 {
      assert !(|s.cache| > 0 && Evicts(c, |s.cache|));
    }
  }

  /** Oldest-first eviction, stated against the table's fill level rather
      than the shift test: an accepted settlement drops the front pair exactly
      when the table is full, keeps every other pair in order, and appends the
      new pair at the back. */
  lemma EvictsOnlyWhenFull<P, R, H>(c: Config<P, R>, s: State<P, R, H>, q: P, response: R, now: nat)
    requires Bounded(c, s)
    requires Accepts(c, response)
    ensures Settle(c, s, q, response, now).cache ==
              (if |s.cache| == Cap(c) then s.cache[1..] else s.cache) + [CachePair(q, response, Stamp(c, now))]
  {
    var r := Tap(c, s, q, response, now).cache;
    assert r == r[..|r| - 1] + [r[|r| - 1]];
    if |s.cache| == Cap(c) {
      assert Evicts(c, |s.cache|);
      assert |r| == |s.cache|;
    } else {
      assert |s.cache| == 0 || !Evicts(c, |s.cache|);
      assert |r| == |s.cache| + 1;
    }
  }

  /** With no count configured, or a count of one, the table only ever holds
      the most recently settled pair. */
  lemma DefaultKeepsOnlyLatest<P, R, H>(c: Config<P, R>, s: State<P, R, H>, q: P, response: R, now: nat)
    requires Bounded(c, s)
    requires c.maxCacheCount <= 1
    requires Accepts(c, response)
    ensures Settle(c, s, q, response, now).cache == [CachePair(q, response, Stamp(c, now))]
  {
    EvictsOnlyWhenFull(c, s, q, response, now);
  }

  /** A call never grows the table, and a failure or a bust leaves it within bounds. */
  lemma ApplyKeepsBound<P, R, H>(c: Config<P, R>, s: State<P, R, H>, e: Event<P, R, H>)
    requires Bounded(c, s)
    ensures Bounded(c, Apply(c, s, e))
  {
    match e
    case Called(q, h, now) =>
    case Settled(q, response, now) => SettleKeepsBound(c, s, q, response, now);
    case Failed(q) =>
    case Busted =>
  }

  /** The size bound holds after any sequence of calls, settlements, failures and busts. */
  lemma {:induction false} RunKeepsBound<P, R, H>(c: Config<P, R>, s: State<P, R, H>, events: seq<Event<P, R, H>>)
    requires Bounded(c, s)
    ensures Bounded(c, Run(c, s, events))
    decreases |events|
  {
    if |events| > 0 {
      ApplyKeepsBound(c, s, events[0]);
      RunKeepsBound(c, Apply(c, s, events[0]), events[1..]);
    }
  }

  /** Every state a call site reaches from its fresh state respects the bound. */
  lemma FreshSiteStaysBounded<P, R, H>(c: Config<P, R>, m: Mirror<P, R>, events: seq<Event<P, R, H>>)
    ensures |Run(c, Fresh(m), events).cache| <= Cap(c)
  {
    RunKeepsBound(c, Fresh(m), events);
  }
}

=== FILE: busting.dfy ===
/** Cache busting through the per-call-site notifier or the global channel. */
module Busting {
  import opened Wrappers
  import opened Arrays
  import opened CacheState
  import opened Engine
  import opened Bounds
  import opened Persistence

  /** Busting twice is busting once. */
  lemma BustIdempotent<P, R, H>(s: State<P, R, H>)
    ensures Bust(Bust(s)) == Bust(s)
  {
  }

  /** Busting forgets every prior call: the next call invokes the producer,
      whatever the arguments, the configuration or the state before. */
  lemma CallAfterBustInvokes<P, R, H>(c: Config<P, R>, s: State<P, R, H>, q: P, h: H, now: nat)
    ensures Call(c, Bust(s), q, h, now).outcome == Invoke(h)
  {
  }

  /** A global bust forces the next call on every call site to invoke its producer. */
  lemma GlobalBustForcesInvocation<P, R, H>(c: Config<P, R>, sites: seq<State<P, R, H>>, i: nat, q: P, h: H, now: nat)
    requires i < |sites|
    ensures GlobalBust(sites)[i] == Bust(sites[i])
    ensures Call(c, GlobalBust(sites)[i], q, h, now).outcome == Invoke(h)
  {
  }

  /** An invocation started before a bust still fails afterwards, and its
      own entry is gone. Its finalize step removes the first pending entry
      the resolver matches against the stale arguments, or else (through
      `splice(-1, 1)`) the last one; either way that is the entry of the one
      call made since the bust, so a further call with those arguments
      invokes the producer a second time while that call is still in flight. */
  lemma StaleSettlementAfterBust<P, R, H>(c: Config<P, R>, s: State<P, R, H>, stale: P, q: P, h: H, h2: H, now: nat, later: nat)
    ensures var b := Call(c, Bust(s), q, h, now);
            && b.outcome == Invoke(h)
            && b.state.pending == [CachePair(q, h, Some(now))]
            && Fail(c, b.state, stale).pending == []
            && Call(c, Fail(c, b.state, stale), q, h2, later).outcome == Invoke(h2)
  {
  }

  /** With a single entry in flight, `finalize` empties the pending table:
      it removes that entry whether or not the resolver matches it. */
  lemma FinalizeEmptiesSingleton<P, R, H>(c: Config<P, R>, u: State<P, R, H>, q: P)
    requires |u.pending| == 1
    ensures Finalize(c, u, q).pending == []
  {
    if InFlight(c, u, q) {
      assert FirstMatch(c.resolver, Keys(u.pending), q).value == 0;
    }
  }

  /** Without a store, a settlement leaves the call site without one. */
  lemma SettleKeepsUnmirrored<P, R, H>(c: Config<P, R>, t: State<P, R, H>, q: P, v: R, now: nat)
    requires t.mirror.Unmirrored?
    ensures Settle(c, t, q, v, now).mirror == Unmirrored
  {
  }

  /** After an accepted settlement, a store, if any, holds the table itself. */
  lemma SettleStoreHoldsTable<P, R, H>(c: Config<P, R>, t: State<P, R, H>, q: P, v: R, now: nat)
    requires Accepts(c, v)
    ensures Settle(c, t, q, v, now).mirror.Mirrored? ==>
              Settle(c, t, q, v, now).mirror.saved == Some(Settle(c, t, q, v, now).cache)
  {
    if t.mirror.Mirrored? {
      SettleMirrorsTable(c, t, q, v, now);
    } else {
      SettleKeepsUnmirrored(c, t, q, v, now);
    }
  }

  /** An accepted response settled on an empty table becomes its only pair. */
  lemma SettleFillsEmptyTable<P, R, H>(c: Config<P, R>, t: State<P, R, H>, q: P, v: R, now: nat)
    requires t.cache == []
    requires Accepts(c, v)
    ensures |Settle(c, t, q, v, now).cache| == 1
    ensures Settle(c, t, q, v, now).cache[0] == CachePair(q, v, Stamp(c, now))
  {
  }

  /** A settlement on an empty table with one entry in flight leaves exactly
      its own pair in the table (and in the store, if one is configured) and
      nothing pending. */
  lemma SettleOnEmptyTable<P, R, H>(c: Config<P, R>, t: State<P, R, H>, stale: P, v: R, done: nat)
    requires t.cache == [] && |t.pending| == 1
    requires Accepts(c, v)
    ensures |Settle(c, t, stale, v, done).cache| == 1
    ensures Settle(c, t, stale, v, done).cache[0] == CachePair(stale, v, Stamp(c, done))
    ensures Settle(c, t, stale, v, done).pending == []
    ensures Settle(c, t, stale, v, done).mirror.Mirrored? ==>
              Settle(c, t, stale, v, done).mirror.saved == Some(Settle(c, t, stale, v, done).cache)
  {
    SettleFillsEmptyTable(c, t, stale, v, done);
    FinalizeEmptiesSingleton(c, t, stale);
    SettleStoreHoldsTable(c, t, stale, v, done);
  }

  /** A table of one live pair whose arguments the resolver matches serves
      that pair, whether it is read from memory or from a store mirroring it. */
  lemma LonePairServes<P, R, H>(c: Config<P, R>, t: State<P, R, H>, q: P, h: H, now: nat)
    requires |t.cache| == 1
    requires t.mirror.Mirrored? ==> t.mirror.saved == Some(t.cache)
    requires c.resolver(t.cache[0].params, q)
    requires !Expired(c, t.cache[0], now)
    ensures Call(c, t, q, h, now).outcome == CacheHit(t.cache[0].response, c.async)
  {
    assert Keys(t.cache) == [t.cache[0].params];
    assert FirstMatch(c.resolver, Keys(t.cache), q) == Some(0);
    if t.mirror.Mirrored? {
      assert LookUp(c, t, q) == Persisted(t.cache[0]);
    } else {
      assert LookUp(c, t, q) == InMemory(0);
    }
  }

  /** The other branch: an invocation started before a bust that succeeds
      afterwards taps its pre-bust response into the emptied table (and the
      store, when one is configured) before its finalize step removes the
      one post-bust pending entry. A bust therefore does not keep stale data
      out of the table. */
  lemma StaleSuccessAfterBustRefills<P, R, H>(c: Config<P, R>, s: State<P, R, H>, stale: P, q: P, h: H, v: R, now: nat, done: nat)
    requires Accepts(c, v)
    ensures Call(c, Bust(s), q, h, now).outcome == Invoke(h)
    ensures var t := Settle(c, Call(c, Bust(s), q, h, now).state, stale, v, done);
            && |t.cache| == 1
            && t.cache[0] == CachePair(stale, v, Stamp(c, done))
            && t.pending == []
            && (t.mirror.Mirrored? ==> t.mirror.saved == Some(t.cache))
  {
    CallAfterBustInvokes(c, s, q, h, now);
    var b := Call(c, Bust(s), q, h, now);
    assert |b.state.cache| == 0 && |b.state.pending| == 1;
    SettleOnEmptyTable(c, b.state, stale, v, done);
  }

  /** After that refill, the next call whose arguments the resolver matches
      against the stale ones is served the pre-bust response. */
  lemma StaleSuccessAfterBustIsServed<P, R, H>(c: Config<P, R>, s: State<P, R, H>, stale: P, q: P, h: H, h2: H, v: R, now: nat, done: nat)
    requires Accepts(c, v)
    requires c.resolver(stale, q)
    ensures Call(c, Settle(c, Call(c, Bust(s), q, h, now).state, stale, v, done), q, h2, done).outcome == CacheHit(v, c.async)
  {
    StaleSuccessAfterBustRefills(c, s, stale, q, h, v, now, done);
    var t := Settle(c, Call(c, Bust(s), q, h, now).state, stale, v, done);
    assert !Expired(c, t.cache[0], done);
    LonePairServes(c, t, q, h2, done);
  }

  /** The table can hold two pairs for equal arguments: a bust lets a second
      invocation for `q` start while the first is in flight, and both settle
      into the table when it has room for two. */
  lemma DuplicateKeysReachable<P, R, H>(c: Config<P, R>, m: Mirror<P, R>, q: P, h1: H, h2: H, a: R, b: R, now: nat)
    requires c.maxCacheCount >= 2
    requires m.Mirrored? ==> m.saved.None?
    requires Accepts(c, a) && Accepts(c, b)
    ensures var s1 := Call(c, Fresh(m), q, h1, now);
            var s2 := Call(c, Bust(s1.state), q, h2, now);
            var s3 := Settle(c, Settle(c, s2.state, q, a, now), q, b, now);
            && s1.outcome == Invoke(h1)
            && s2.outcome == Invoke(h2)
            && |s3.cache| == 2
            && s3.cache[0].params == q && s3.cache[1].params == q
  {
    var s0: State<P, R, H> := Fresh(m);
    assert LookUp(c, s0, q).Miss?;
    var s1 := Call(c, s0, q, h1, now);
    CallAfterBustInvokes(c, s1.state, q, h2, now);
    var s2 := Call(c, Bust(s1.state), q, h2, now);
    assert s2.state.cache == [];
    var t1 := Settle(c, s2.state, q, a, now);
    assert |t1.cache| == 1 && t1.cache[0].params == q;
    assert !Evicts(c, |t1.cache|);
    var t2 := Settle(c, t1, q, b, now);
    assert Tap(c, t1, q, b, now).cache == t1.cache + [CachePair(q, b, Stamp(c, now))];
  }
}

=== FILE: cache_state.dfy ===
/** The data of one memoized call site: its configuration, its two tables and
    its optional persistence mirror. */
module CacheState {
  import opened Wrappers

  /** One entry of either table. In the cache table `response` is the settled
      value and `created` is a timestamp only when an age limit is configured;
      in the pending table `response` is the in-flight handle and `created`
      is always the time of the invocation. */
  datatype CachePair<P, V> = CachePair(params: P, response: V, created: Option<nat>)

  /** The persistence store of a call site: either none is configured, or one
      is, holding a saved table or null (never written, or busted). */
  datatype Mirror<P, R> =
    | Unmirrored
    | Mirrored(saved: Option<seq<CachePair<P, R>>>)

  /** The call-site configuration captured at decoration time. `maxAge` and
      `maxCacheCount` use 0 for "not configured", which is how the engine's
      truthiness tests treat both an absent option and a zero. */
  datatype Config<!P, !R> = Config(
    resolver: (P, P) -> bool,
    shouldCache: Option<R -> bool>,
    maxAge: nat,
    sliding: bool,
    maxCacheCount: nat,
    async: bool)

  /** The mutable state of one call site. */
  datatype State<P, R, H> = State(
    cache: seq<CachePair<P, R>>,
    pending: seq<CachePair<P, H>>,
    mirror: Mirror<P, R>)

  /** What a call hands back: a replay of a cached response (deferred by one
      tick when `async` is configured), an in-flight handle, or the handle of
      a new producer invocation. */
  datatype Outcome<R, H> =
    | CacheHit(response: R, deferred: bool)
    | PendingHit(handle: H)
    | Invoke(handle: H)

  /** The default resolver: structural equality of the normalized arguments. */
  function DefaultResolver<P(==)>(stored: P, incoming: P): bool
  {
    stored == incoming
  }

  /** A call site decorated with no options. */
  function DefaultConfig<P(==), R>(): Config<P, R>
  {
    Config(DefaultResolver, None, 0, false, 0, false)
  }

  /** A call site's state before its first call. */
  function Fresh<P, R, H>(mirror: Mirror<P, R>): State<P, R, H>
  {
    State([], [], mirror)
  }

  /** The parameters of a table, in table order. */
  function Keys<P, V>(pairs: seq<CachePair<P, V>>): (ks: seq<P>)
    ensures |ks| == |pairs|
    ensures forall i :: 0 <= i < |pairs| ==> ks[i] == pairs[i].params
  {
    if |pairs| == 0 then [] else [pairs[0].params] + Keys(pairs[1..])
  }

  /** Whether the should-cache decider lets a settled response into the table. */
  predicate Accepts<P, R>(c: Config<P, R>, response: R)
  {
    c.shouldCache.None? || c.shouldCache.value(response)
  }

  /** The `created` stamp a newly cached pair gets. */
  function Stamp<P, R>(c: Config<P, R>, now: nat): Option<nat>
  {
    if c.maxAge != 0 then Some(now) else None
  }

  /** The pair is subject to the age limit: one is configured and the pair carries a time. */
  predicate Dated<P, R>(c: Config<P, R>, p: CachePair<P, R>)
  {
    c.maxAge != 0 && p.created.Some?
  }

  /** The pair is older than the age limit at `now` (strictly). */
  predicate Expired<P, R>(c: Config<P, R>, p: CachePair<P, R>, now: nat)
  {
    Dated(c, p) && now - p.created.value > c.maxAge
  }

  /** The shift test made before a new pair is appended to a table of length `n`. */
  predicate Evicts<P, R>(c: Config<P, R>, n: nat)
  {
    c.maxCacheCount == 0 || c.maxCacheCount == 1 || c.maxCacheCount < n + 1
  }

  /** The largest table a call site keeps: one pair unless a count above one is configured. */
  function Cap<P, R>(c: Config<P, R>): nat
  {
    if c.maxCacheCount <= 1 then 1 else c.maxCacheCount
  }

  /** The size invariant of the cache table. */
  predicate Bounded<P, R, H>(c: Config<P, R>, s: State<P, R, H>)
  {
    |s.cache| <= Cap(c)
  }
}

=== FILE: coalescing.dfy ===
/** Request coalescing and the life of a pending entry: the decision order
    cache, then pending, then producer, and the settlement that ends an
    invocation. */
module Coalescing {
  import opened Wrappers
  import opened Arrays
  import opened CacheState
  import opened Engine

  /** A call with `q` at `now` would not invoke the producer. */
  predicate Covered<P, R, H>(c: Config<P, R>, s: State<P, R, H>, q: P, now: nat)
  {
    CacheServes(c, s, q, now) || InFlight(c, s, q)
  }

  /** The result of calling `n` times in a row, and how many of those calls
      invoked the producer. */
  datatype Tally<P, R, H> = Tally(state: State<P, R, H>, invocations: nat)

  /** `n` calls in a row, each made by `step` on the state the previous one left. */
  function Repeat<P, R, H>(step: State<P, R, H> -> Step<P, R, H>, s: State<P, R, H>, n: nat): (t: Tally<P, R, H>)
    ensures t.invocations <= n
    decreases n
  {
    if n == 0 then Tally(s, 0)
    else
      var r := step(s);
      var rest := Repeat(step, r.state, n - 1);
      Tally(rest.state, rest.invocations + if r.outcome.Invoke? then 1 else 0)
  }

  /** `n` calls in a row with the same arguments, handle and time. */
  function CallRepeatedly<P, R, H>(c: Config<P, R>, s: State<P, R, H>, q: P, h: H, now: nat, n: nat): Tally<P, R, H>
  {
    Repeat(t => Call(c, t, q, h, now), s, n)
  }

  /** A property of states that every step keeps and under which no step
      invokes the producer rules out invocations in any number of steps. */
  lemma {:induction false} KeptInvariantBlocksInvocation<P, R, H>(step: State<P, R, H> -> Step<P, R, H>, inv: State<P, R, H> -> bool, s: State<P, R, H>, n: nat)
    requires inv(s)
    requires forall t :: inv(t) ==> !step(t).outcome.Invoke? && inv(step(t).state)
    ensures Repeat(step, s, n).invocations == 0
    decreases n
  {
    if n > 0 {
      KeptInvariantBlocksInvocation(step, inv, step(s).state, n - 1);
    }
  }

  /** When the first step establishes such a property, only the first step
      can invoke the producer. */
  lemma OnlyFirstStepInvokes<P, R, H>(step: State<P, R, H> -> Step<P, R, H>, inv: State<P, R, H> -> bool, s: State<P, R, H>, n: nat)
    requires n >= 1
    requires inv(step(s).state)
    requires forall t :: inv(t) ==> !step(t).outcome.Invoke? && inv(step(t).state)
    ensures Repeat(step, s, n).invocations == if step(s).outcome.Invoke? then 1 else 0
  {
    KeptInvariantBlocksInvocation(step, inv, step(s).state, n - 1);
  }

  /** A call served from the cache leaves its pair serving the same arguments
      at the same instant, renewed or not, whatever the resolver. */
  lemma HitStaysServed<P, R, H>(c: Config<P, R>, s: State<P, R, H>, q: P, h: H, now: nat)
    requires Call(c, s, q, h, now).outcome.CacheHit?
    ensures CacheServes(c, Call(c, s, q, h, now).state, q, now)
  {
    var r := Call(c, s, q, h, now);
    var f := LookUp(c, s, q);
    assert r.state.mirror == s.mirror;
    if f.InMemory? {
      var i := f.index;
      assert Keys(r.state.cache) == Keys(s.cache);
      assert FirstMatch(c.resolver, Keys(r.state.cache), q) == FirstMatch(c.resolver, Keys(s.cache), q);
      assert LookUp(c, r.state, q) == f;
      assert r.state.cache[i] == s.cache[i] || r.state.cache[i] == s.cache[i].(created := Some(now));
    } else {
      assert LookUp(c, r.state, q) == f;
    }
  }

  /** Whatever a call with `q` does, a second call with `q` at the same
      instant is covered: by the pending entry it appended, by the pending
      entry it found, or by the cache pair it served (renewed or not). The
      appended entry covers `q` only when the resolver matches `q` against itself. */
  lemma CallCovers<P, R, H>(c: Config<P, R>, s: State<P, R, H>, q: P, h: H, now: nat)
    requires c.resolver(q, q)
    ensures Covered(c, Call(c, s, q, h, now).state, q, now)
  {
    var r := Call(c, s, q, h, now);
    match r.outcome
    case Invoke(_) =>
      var keys := Keys(r.state.pending);
      assert keys[|keys| - 1] == q;
    case PendingHit(_) =>
    case CacheHit(_, _) =>
      HitStaysServed(c, s, q, h, now);
  }

  /** A covered call does not invoke the producer and leaves the arguments
      covered, whatever the resolver: a pending hit leaves the pending table
      as it was, and a cache hit leaves its pair serving. */
  lemma CoveredCallStaysCovered<P, R, H>(c: Config<P, R>, s: State<P, R, H>, q: P, h: H, now: nat)
    requires Covered(c, s, q, now)
    ensures !Call(c, s, q, h, now).outcome.Invoke?
    ensures Covered(c, Call(c, s, q, h, now).state, q, now)
  {
    var r := Call(c, s, q, h, now);
    match r.outcome
    case PendingHit(_) =>
      assert r.state.pending == s.pending;
    case CacheHit(_, _) =>
      HitStaysServed(c, s, q, h, now);
  }

  /** Calls at `now` with `q` keep `q` covered and, while it is covered, never invoke the producer. */
  lemma CoveredIsKept<P, R, H>(c: Config<P, R>, q: P, h: H, now: nat)
    ensures forall t: State<P, R, H> :: Covered(c, t, q, now) ==>
              !Call(c, t, q, h, now).outcome.Invoke? && Covered(c, Call(c, t, q, h, now).state, q, now)
  {
    forall t: State<P, R, H> | Covered(c, t, q, now)
      ensures !Call(c, t, q, h, now).outcome.Invoke? && Covered(c, Call(c, t, q, h, now).state, q, now)
    {
      CoveredCallStaysCovered(c, t, q, h, now);
    }
  }

  /** Once covered, no number of further calls at the same instant invokes the producer. */
  lemma CoveredCallsNeverInvoke<P, R, H>(c: Config<P, R>, s: State<P, R, H>, q: P, h: H, now: nat, n: nat)
    requires Covered(c, s, q, now)
    ensures CallRepeatedly(c, s, q, h, now, n).invocations == 0
  {
    CoveredIsKept(c, q, h, now);
    KeptInvariantBlocksInvocation(t => Call(c, t, q, h, now), t => Covered(c, t, q, now), s, n);
  }

  /** A call invokes the producer exactly when it is not covered, and leaves
      its arguments covered either way. */
  lemma CallInvokesUnlessCovered<P, R, H>(c: Config<P, R>, s: State<P, R, H>, q: P, h: H, now: nat)
    requires c.resolver(q, q)
    ensures Call(c, s, q, h, now).outcome.Invoke? <==> !Covered(c, s, q, now)
    ensures Covered(c, Call(c, s, q, h, now).state, q, now)
  {
    CallCovers(c, s, q, h, now);
  }

  /** Back-to-back calls with equal arguments invoke the producer exactly
      once when nothing covers the first call, and never otherwise. */
  lemma RepeatedCallsInvokeOnce<P, R, H>(c: Config<P, R>, s: State<P, R, H>, q: P, h: H, now: nat, n: nat)
    requires c.resolver(q, q)
    requires n >= 1
    ensures CallRepeatedly(c, s, q, h, now, n).invocations == if Covered(c, s, q, now) then 0 else 1
  {
    CoveredIsKept(c, q, h, now);
    CallInvokesUnlessCovered(c, s, q, h, now);
    OnlyFirstStepInvokes(t => Call(c, t, q, h, now), t => Covered(c, t, q, now), s, n);
  }

  /** The test with 500 calls on a fresh call site: one invocation. */
  lemma FiveHundredCallsInvokeOnce<P, R, H>(q: P, h: H, now: nat)
    ensures CallRepeatedly(DefaultConfig<P, R>(), Fresh<P, R, H>(Unmirrored), q, h, now, 500).invocations == 1
  {
    RepeatedCallsInvokeOnce(DefaultConfig<P, R>(), Fresh<P, R, H>(Unmirrored), q, h, now, 500);
  }

  /** When no older pending entry matches `q`, `finalize` removes the entry
      for `q` appended last: at its own position when the resolver matches
      `q` against itself, and through index -1 (the last entry) when it does not. */
  lemma FinalizeRemovesAppended<P, R, H>(c: Config<P, R>, t: State<P, R, H>, pending: seq<CachePair<P, H>>, q: P, e: CachePair<P, H>)
    requires e.params == q
    requires t.pending == pending + [e]
    requires FirstMatch(c.resolver, Keys(pending), q).None?
    ensures Finalize(c, t, q).pending == pending
  {
    var keys := Keys(t.pending);
    assert keys[..|pending|] == Keys(pending);
    assert keys[|pending|] == q;
    if c.resolver(q, q) {
      assert FirstMatch(c.resolver, keys, q) == Some(|pending|);
    } else {
      assert FirstMatch(c.resolver, keys, q) == None;
    }
    assert t.pending[..|pending|] == pending;
  }

  /** The -1 fallback of `finalize` removes the LAST pending entry, which is
      the invocation's own only while no later call has appended after it.
      Under a resolver that matches neither `a` nor `b` against `a`, two
      invoking calls append `a` then `b`, and the failure of `a`'s invocation
      removes `b`'s entry and leaves its own. */
  lemma FinalizeDropsLaterEntry<P, R, H>(c: Config<P, R>, s: State<P, R, H>, a: P, b: P, ha: H, hb: H, now: nat)
    requires LookUp(c, s, a).Miss? && LookUp(c, s, b).Miss?
    requires !InFlight(c, s, a) && !InFlight(c, s, b)
    requires !c.resolver(a, a) && !c.resolver(a, b) && !c.resolver(b, a)
    ensures var r1 := Call(c, s, a, ha, now);
            var r2 := Call(c, r1.state, b, hb, now);
            && r1.outcome == Invoke(ha)
            && r2.outcome == Invoke(hb)
            && Fail(c, r2.state, a).pending == s.pending + [CachePair(a, ha, Some(now))]
  {
    var ea := CachePair(a, ha, Some(now));
    var eb := CachePair(b, hb, Some(now));
    var r1 := Call(c, s, a, ha, now);
    assert r1.state.cache == s.cache && r1.state.mirror == s.mirror;
    assert LookUp(c, r1.state, b).Miss?;
    var k1 := Keys(r1.state.pending);
    assert k1 == Keys(s.pending) + [a];
    assert !InFlight(c, r1.state, b);
    var r2 := Call(c, r1.state, b, hb, now);
    assert r2.state.pending == s.pending + [ea] + [eb];
    var k2 := Keys(r2.state.pending);
    assert k2 == Keys(s.pending) + [a] + [b];
    assert !InFlight(c, r2.state, a);
    assert r2.state.pending[..|r2.state.pending| - 1] == s.pending + [ea];
  }

  /** An invoking call appends its pending entry last, and `finalize` removes
      exactly that entry, whether or not the resolver matches `q` against itself. */
  lemma FinalizeUndoesInvoke<P, R, H>(c: Config<P, R>, s: State<P, R, H>, q: P, h: H, now: nat)
    requires !CacheServes(c, s, q, now)
    requires !InFlight(c, s, q)
    ensures Call(c, s, q, h, now).outcome == Invoke(h)
    ensures Finalize(c, Call(c, s, q, h, now).state, q).pending == s.pending
  {
    var t := Call(c, s, q, h, now).state;
    FinalizeRemovesAppended(c, t, s.pending, q, CachePair(q, h, Some(now)));
  }

  /** Settlement, success or failure, removes the pending entry the call
      appended, so the pending table is back to what it was before the call. */
  lemma SettlementClearsPending<P, R, H>(c: Config<P, R>, s: State<P, R, H>, q: P, h: H, now: nat, response: R, later: nat)
    requires !CacheServes(c, s, q, now)
    requires !InFlight(c, s, q)
    ensures Call(c, s, q, h, now).outcome == Invoke(h)
    ensures Fail(c, Call(c, s, q, h, now).state, q).pending == s.pending
    ensures Settle(c, Call(c, s, q, h, now).state, q, response, later).pending == s.pending
  {
    FinalizeUndoesInvoke(c, s, q, h, now);
  }

  /** A failed invocation is forgotten: when nothing in either table matched
      the call that started it, the failure restores the state exactly. */
  lemma FailUndoesInvoke<P, R, H>(c: Config<P, R>, s: State<P, R, H>, q: P, h: H, now: nat)
    requires LookUp(c, s, q).Miss?
    requires !InFlight(c, s, q)
    ensures Call(c, s, q, h, now).outcome == Invoke(h)
    ensures Fail(c, Call(c, s, q, h, now).state, q) == s
  {
    FinalizeUndoesInvoke(c, s, q, h, now);
  }

  /** The should-cache decider: a refused response leaves no trace, so the
      next call with the same arguments invokes the producer again. */
  lemma RefusedResponseIsNotServed<P, R, H>(c: Config<P, R>, s: State<P, R, H>, q: P, h: H, response: R, now: nat, later: nat, h2: H, again: nat)
    requires LookUp(c, s, q).Miss?
    requires !InFlight(c, s, q)
    requires !Accepts(c, response)
    ensures Settle(c, Call(c, s, q, h, now).state, q, response, later) == s
    ensures Call(c, Settle(c, Call(c, s, q, h, now).state, q, response, later), q, h2, again).outcome == Invoke(h2)
  {
    FailUndoesInvoke(c, s, q, h, now);
  }

  /** After an accepted settlement for `q`, when no older pair matched `q`,
      only the appended pair matches `q`. */
  lemma OnlySettledPairMatches<P, R, H>(c: Config<P, R>, s: State<P, R, H>, q: P, response: R, t1: nat)
    requires Accepts(c, response)
    requires forall j :: 0 <= j < |s.cache| ==> !c.resolver(s.cache[j].params, q)
    ensures var t := Tap(c, s, q, response, t1).cache;
            forall j :: 0 <= j < |t| - 1 ==> !c.resolver(t[j].params, q)
  {
    var t := Tap(c, s, q, response, t1).cache;
    var n := |t|;
    var k := |s.cache| + 1 - n;
    forall j | 0 <= j < n - 1
      ensures !c.resolver(t[j].params, q)
    {
      assert t[..n - 1][j] == t[j];
      assert t[j] == s.cache[k + j];
    }
  }

  /** The lookup lands on the last pair of a table whose other pairs do not match. */
  lemma LastPairIsFound<P, R, H>(c: Config<P, R>, s: State<P, R, H>, q: P)
    requires s.mirror.Unmirrored? || s.mirror == Mirrored(Some(s.cache))
    requires |s.cache| > 0 && c.resolver(s.cache[|s.cache| - 1].params, q)
    requires forall j :: 0 <= j < |s.cache| - 1 ==> !c.resolver(s.cache[j].params, q)
    ensures Candidate(c, s, q) == Some(s.cache[|s.cache| - 1])
  {
    var n := |s.cache|;
    assert FirstMatch(c.resolver, Keys(s.cache), q) == Some(n - 1);
    if s.mirror.Mirrored? {
      assert FirstPersisted(c, s, q, n - 1);
    }
  }

  /** After an accepted settlement for `q`, when no older pair matched `q`,
      the lookup lands on the pair just appended. */
  lemma SettledPairIsFound<P, R, H>(c: Config<P, R>, s: State<P, R, H>, q: P, response: R, t1: nat)
    requires c.resolver(q, q)
    requires Accepts(c, response)
    requires forall j :: 0 <= j < |s.cache| ==> !c.resolver(s.cache[j].params, q)
    ensures Candidate(c, Settle(c, s, q, response, t1), q) == Some(CachePair(q, response, Stamp(c, t1)))
  {
    OnlySettledPairMatches(c, s, q, response, t1);
    var t := Settle(c, s, q, response, t1);
    assert t.cache == Tap(c, s, q, response, t1).cache;
    LastPairIsFound(c, t, q);
  }

  /** A settled response is served to a later call with the same arguments
      exactly as long as its age is within `maxAge` (forever with no age
      limit), provided no older pair matches those arguments. */
  lemma SettledResponseServedUntilMaxAge<P, R, H>(c: Config<P, R>, s: State<P, R, H>, q: P, response: R, t1: nat, h: H, t2: nat)
    requires c.resolver(q, q)
    requires Accepts(c, response)
    requires forall j :: 0 <= j < |s.cache| ==> !c.resolver(s.cache[j].params, q)
    ensures var r := Call(c, Settle(c, s, q, response, t1), q, h, t2);
            (r.outcome.CacheHit? <==> c.maxAge == 0 || t2 - t1 <= c.maxAge)
            && (r.outcome.CacheHit? ==> r.outcome.response == response)
  {
    SettledPairIsFound(c, s, q, response, t1);
  }
}

=== FILE: engine.dfy ===
/** The replacement function installed on a memoized method, split into the
    transitions of one call site: a call, the settlement of an invocation
    (success or failure) and a bust. */
module Engine {
  import opened Wrappers
  import opened Arrays
  import opened CacheState

  /** Where the cache lookup landed. An in-memory hit is the table's own
      object, so `indexOf` finds it at `index`; a persisted hit is a freshly
      deserialized copy that `indexOf` never finds in the in-memory table. */
  datatype Found<P, R> =
    | Miss
    | InMemory(index: nat)
    | Persisted(pair: CachePair<P, R>)

  /** The cache table after lazy expiry and renewal, and the pair that survived it. */
  datatype Checked<P, R> = Checked(cache: seq<CachePair<P, R>>, hit: Option<CachePair<P, R>>)

  /** The state after a call and what the caller gets back. */
  datatype Step<P, R, H> = Step(state: State<P, R, H>, outcome: Outcome<R, H>)

  /** The cache lookup: the in-memory table, unless a store is configured, in
      which case only the saved table is searched and a null store is a miss. */
  function LookUp<P, R, H>(c: Config<P, R>, s: State<P, R, H>, q: P): (f: Found<P, R>)
    ensures s.mirror.Mirrored? ==> !f.InMemory?
    ensures s.mirror == Mirrored(None) ==> f.Miss?
    ensures f.InMemory? ==> f.index < |s.cache| && c.resolver(s.cache[f.index].params, q)
    ensures f.InMemory? ==> forall j :: 0 <= j < f.index ==> !c.resolver(s.cache[j].params, q)
    ensures s.mirror.Unmirrored? && f.Miss? ==> forall j :: 0 <= j < |s.cache| ==> !c.resolver(s.cache[j].params, q)
    ensures f.Persisted? ==> exists i :: FirstPersisted(c, s, q, i) && s.mirror.saved.value[i] == f.pair
    ensures s.mirror.Mirrored? && s.mirror.saved.Some? && f.Miss? ==>
              forall j :: 0 <= j < |s.mirror.saved.value| ==> !c.resolver(s.mirror.saved.value[j].params, q)
  {
    match s.mirror
    case Unmirrored =>
      (match FirstMatch(c.resolver, Keys(s.cache), q)
       case None => Miss
       case Some(i) => InMemory(i))
    case Mirrored(saved) =>
      (match saved
       case None => Miss
       case Some(ps) =>
         match FirstMatch(c.resolver, Keys(ps), q)
         case None => Miss
         case Some(i) => assert FirstPersisted(c, s, q, i); Persisted(ps[i]))
  }

  /** `i` is the first position of the saved table that the resolver matches. */
  predicate FirstPersisted<P, R, H>(c: Config<P, R>, s: State<P, R, H>, q: P, i: int)
  {
    && 0 <= i
    && s.mirror.Mirrored?
    && s.mirror.saved.Some?
    && i < |s.mirror.saved.value|
    && c.resolver(s.mirror.saved.value[i].params, q)
    && forall j :: 0 <= j < i ==> !c.resolver(s.mirror.saved.value[j].params, q)
  }

  /** The pair the lookup lands on, if any. */
  function Candidate<P, R, H>(c: Config<P, R>, s: State<P, R, H>, q: P): Option<CachePair<P, R>>
  {
    match LookUp(c, s, q)
    case Miss => None
    case InMemory(i) => Some(s.cache[i])
    case Persisted(p) => Some(p)
  }

  /** A call with `q` at `now` is answered from the cache table. */
  predicate CacheServes<P, R, H>(c: Config<P, R>, s: State<P, R, H>, q: P, now: nat)
  {
    var p := Candidate(c, s, q);
    p.Some? && !Expired(c, p.value, now)
  }

  /** Some in-flight invocation matches `q`. */
  predicate InFlight<P, R, H>(c: Config<P, R>, s: State<P, R, H>, q: P)
  {
    FirstMatch(c.resolver, Keys(s.pending), q).Some?
  }

  /** Lazy expiry and sliding renewal of the pair the lookup landed on. An
      expired pair is spliced out at its `indexOf` position, which is -1 for a
      persisted copy, so the LAST in-memory pair goes instead and the store is
      left alone. Renewing a persisted copy touches neither table. */
  function AgeCheck<P, R, H>(c: Config<P, R>, s: State<P, R, H>, q: P, now: nat): (r: Checked<P, R>)
    ensures r.hit == (if CacheServes(c, s, q, now) then Candidate(c, s, q) else None)
    ensures LookUp(c, s, q).Miss? ==> r.cache == s.cache
    ensures r.hit.Some? ==> Keys(r.cache) == Keys(s.cache)
    ensures |s.cache| - 1 <= |r.cache| <= |s.cache|
  {
    match LookUp(c, s, q)
    case Miss => Checked(s.cache, None)
    case InMemory(i) =>
      var p := s.cache[i];
      if !Dated(c, p) then Checked(s.cache, Some(p))
      else if now - p.created.value > c.maxAge then Checked(SpliceOne(s.cache, i), None)
      else if c.sliding then
        var renewed := s.cache[i := p.(created := Some(now))];
        assert Keys(renewed) == Keys(s.cache);
        Checked(renewed, Some(p))
      else Checked(s.cache, Some(p))
    case Persisted(p) =>
      if !Dated(c, p) then Checked(s.cache, Some(p))
      else if now - p.created.value > c.maxAge then Checked(SpliceOne(s.cache, -1), None)
      else Checked(s.cache, Some(p))
  }

  /** A call with parameters `q` at time `now`; `h` is the handle the producer
      returns should it be invoked. A live cache pair wins over an in-flight
      invocation, which wins over invoking the producer; only the last appends
      a pending entry, and no call writes the store. */
  function Call<P, R, H>(c: Config<P, R>, s: State<P, R, H>, q: P, h: H, now: nat): (r: Step<P, R, H>)
    ensures r.outcome.CacheHit? <==> CacheServes(c, s, q, now)
    ensures r.outcome.CacheHit? ==> r.outcome == CacheHit(Candidate(c, s, q).value.response, c.async)
    ensures r.outcome.PendingHit? <==> !CacheServes(c, s, q, now) && InFlight(c, s, q)
    ensures r.outcome.PendingHit? ==>
              r.outcome.handle == s.pending[FirstMatch(c.resolver, Keys(s.pending), q).value].response
    ensures r.outcome.Invoke? ==> r.outcome.handle == h && r.state.pending == s.pending + [CachePair(q, h, Some(now))]
    ensures !r.outcome.Invoke? ==> r.state.pending == s.pending
    ensures r.outcome.CacheHit? ==> Keys(r.state.cache) == Keys(s.cache)
    ensures |s.cache| - 1 <= |r.state.cache| <= |s.cache|
    ensures r.state.mirror == s.mirror
  {
    var checked := AgeCheck(c, s, q, now);
    var inFlight := FirstMatch(c.resolver, Keys(s.pending), q);
    match checked.hit
    case Some(p) =>
      Step(s.(cache := checked.cache), CacheHit(p.response, c.async))
    case None =>
      match inFlight
      case Some(i) =>
        Step(s.(cache := checked.cache), PendingHit(s.pending[i].response))
      case None =>
        Step(State(checked.cache, s.pending + [CachePair(q, h, Some(now))], s.mirror), Invoke(h))
  }

  /** The `tap` step of a settlement: unless the decider refuses the response,
      shift the oldest pair when the table is at its limit (always, with no
      count or a count of one), append the new pair and mirror the table to
      the store. */
  function Tap<P, R, H>(c: Config<P, R>, s: State<P, R, H>, q: P, response: R, now: nat): (r: State<P, R, H>)
    ensures !Accepts(c, response) ==> r == s
    ensures r.pending == s.pending
    ensures Accepts(c, response) ==>
              && |s.cache| <= |r.cache| <= |s.cache| + 1
              && 0 < |r.cache|
              && r.cache[|r.cache| - 1] == CachePair(q, response, Stamp(c, now))
              && r.cache[..|r.cache| - 1] == s.cache[|s.cache| + 1 - |r.cache|..]
    ensures Accepts(c, response) ==> (|r.cache| == |s.cache| <==> |s.cache| > 0 && Evicts(c, |s.cache|))
    ensures Accepts(c, response) ==> r.mirror == (if s.mirror.Mirrored? then Mirrored(Some(r.cache)) else Unmirrored)
  {
    if !Accepts(c, response) then s
    else
      var kept := if Evicts(c, |s.cache|) then Shift(s.cache) else s.cache;
      var cache := kept + [CachePair(q, response, Stamp(c, now))];
      assert cache[..|cache| - 1] == kept;
      s.(cache := cache, mirror := if s.mirror.Mirrored? then Mirrored(Some(cache)) else Unmirrored)
  }

  /** The `finalize` step of a settlement: splice out the first pending entry
      the resolver matches, at its `indexOf` position; with no match that
      position is -1 and the LAST pending entry goes instead. */
  function Finalize<P, R, H>(c: Config<P, R>, s: State<P, R, H>, q: P): (r: State<P, R, H>)
    ensures r.cache == s.cache && r.mirror == s.mirror
    ensures InFlight(c, s, q) ==>
              var i := FirstMatch(c.resolver, Keys(s.pending), q).value;
              r.pending == s.pending[..i] + s.pending[i + 1..]
    ensures !InFlight(c, s, q) && |s.pending| > 0 ==> r.pending == s.pending[..|s.pending| - 1]
    ensures |s.pending| == 0 ==> r.pending == []
  {
    var i := FirstMatch(c.resolver, Keys(s.pending), q);
    s.(pending := SpliceOne(s.pending, IndexOrMinusOne(i)))
  }

  /** A producer invocation for `q` delivered `response` at `now`. */
  function Settle<P, R, H>(c: Config<P, R>, s: State<P, R, H>, q: P, response: R, now: nat): (r: State<P, R, H>)
    ensures !Accepts(c, response) ==> r.cache == s.cache && r.mirror == s.mirror
    ensures Accepts(c, response) ==> 0 < |r.cache| && r.cache[|r.cache| - 1] == CachePair(q, response, Stamp(c, now))
    ensures r.pending == Finalize(c, s, q).pending
  {
    Finalize(c, Tap(c, s, q, response, now), q)
  }

  /** A producer invocation for `q` failed (or completed without a value). */
  function Fail<P, R, H>(c: Config<P, R>, s: State<P, R, H>, q: P): (r: State<P, R, H>)
    ensures r.cache == s.cache && r.mirror == s.mirror
    ensures |r.pending| == if |s.pending| == 0 then 0 else |s.pending| - 1
  {
    Finalize(c, s, q)
  }

  /** A per-call-site or global bust notification: both tables are emptied and
      a configured store is set to null. */
  function Bust<P, R, H>(s: State<P, R, H>): (r: State<P, R, H>)
    ensures r.cache == [] && r.pending == []
    ensures r.mirror.Mirrored? <==> s.mirror.Mirrored?
    ensures r.mirror.Mirrored? ==> r.mirror.saved.None?
  {
    State([], [], if s.mirror.Mirrored? then Mirrored(None) else Unmirrored)
  }

  /** The global bust channel: every subscribed call site is busted. */
  function GlobalBust<P, R, H>(sites: seq<State<P, R, H>>): (r: seq<State<P, R, H>>)
    ensures |r| == |sites|
    ensures forall i :: 0 <= i < |r| ==> r[i].cache == [] && r[i].pending == [] && r[i].mirror.Mirrored? == sites[i].mirror.Mirrored?
  {
    seq(|sites|, i requires 0 <= i < |sites| => Bust(sites[i]))
  }

  /** One event in the life of a call site. */
  datatype Event<P, R, H> =
    | Called(q: P, h: H, now: nat)
    | Settled(q: P, response: R, now: nat)
    | Failed(q: P)
    | Busted

  function Apply<P, R, H>(c: Config<P, R>, s: State<P, R, H>, e: Event<P, R, H>): State<P, R, H>
  {
    match e
    case Called(q, h, now) => Call(c, s, q, h, now).state
    case Settled(q, response, now) => Settle(c, s, q, response, now)
    case Failed(q) => Fail(c, s, q)
    case Busted => Bust(s)
  }

  /** The state after a sequence of events, applied in order. */
  function Run<P, R, H>(c: Config<P, R>, s: State<P, R, H>, events: seq<Event<P, R, H>>): State<P, R, H>
    decreases |events|
  {
    if |events| == 0 then s else Run(c, Apply(c, s, events[0]), events[1..])
  }
}

=== FILE: expiry.dfy ===
/** Lazy age-based expiry and sliding renewal, evaluated at lookup time. */
module Expiry {
  import opened Wrappers
  import opened CacheState
  import opened Engine

  /** An expired in-memory pair is spliced out of the table at its own
      position and the call is not served from the cache. */
  lemma ExpiredPairIsRemoved<P, R, H>(c: Config<P, R>, s: State<P, R, H>, q: P, h: H, now: nat)
    requires LookUp(c, s, q).InMemory?
    requires Expired(c, s.cache[LookUp(c, s, q).index], now)
    ensures var i := LookUp(c, s, q).index;
            var r := Call(c, s, q, h, now);
            r.state.cache == s.cache[..i] + s.cache[i + 1..] && !r.outcome.CacheHit?
  {
  }

  /** Sliding renewal: serving a live in-memory pair restamps it with the
      call's time and touches no other pair, so its life now runs from that
      call; a call within `maxAge` of the renewal is served again, a later one is not. */
  lemma SlidingRenewalRestartsAge<P, R, H>(c: Config<P, R>, s: State<P, R, H>, q: P, h: H, t1: nat, t2: nat)
    requires c.sliding
    requires LookUp(c, s, q).InMemory?
    requires Dated(c, s.cache[LookUp(c, s, q).index])
    requires CacheServes(c, s, q, t1)
    ensures var i := LookUp(c, s, q).index;
            var r := Call(c, s, q, h, t1);
            && r.outcome.CacheHit?
            && |r.state.cache| == |s.cache|
            && r.state.cache[i] == s.cache[i].(created := Some(t1))
            && (forall j :: 0 <= j < |s.cache| && j != i ==> r.state.cache[j] == s.cache[j])
            && (CacheServes(c, r.state, q, t2) <==> t2 - t1 <= c.maxAge)
  {
    var i := LookUp(c, s, q).index;
    var r := Call(c, s, q, h, t1);
    assert r.state.cache == s.cache[i := s.cache[i].(created := Some(t1))];
    assert Keys(r.state.cache) == Keys(s.cache);
    assert LookUp(c, r.state, q) == InMemory(i);
  }

  /** Without sliding expiration (or whenever the lookup reads a persisted
      copy) a cache hit changes nothing: the pair keeps its original age. */
  lemma HitWithoutRenewalChangesNothing<P, R, H>(c: Config<P, R>, s: State<P, R, H>, q: P, h: H, now: nat)
    requires !c.sliding || s.mirror.Mirrored?
    requires CacheServes(c, s, q, now)
    ensures Call(c, s, q, h, now).state == s
  {
  }

  /** A pair stored with no age limit in force carries no time and is served
      at every instant for as long as it is the pair the lookup lands on. */
  lemma UndatedPairNeverExpires<P, R, H>(c: Config<P, R>, s: State<P, R, H>, q: P, h: H, now: nat)
    requires Candidate(c, s, q).Some? && Candidate(c, s, q).value.created.None?
    ensures Call(c, s, q, h, now).outcome == CacheHit(Candidate(c, s, q).value.response, c.async)
  {
  }
}

=== FILE: persistence.dfy ===
/** The persistence mirror: its precedence over the in-memory table, and the
    consequences of the lookup returning a deserialized copy rather than an
    object of the in-memory table. */
module Persistence {
  import opened Wrappers
  import opened CacheState
  import opened Engine

  /** With a store configured the in-memory table plays no part in what a
      call returns: two states that differ only in that table answer alike,
      and a null store is a cache miss whatever the table holds. */
  lemma MirrorOverridesMemory<P, R, H>(c: Config<P, R>, s1: State<P, R, H>, s2: State<P, R, H>, q: P, h: H, now: nat)
    requires s1.mirror.Mirrored?
    requires s1.mirror == s2.mirror && s1.pending == s2.pending
    ensures Call(c, s1, q, h, now).outcome == Call(c, s2, q, h, now).outcome
    ensures s1.mirror.saved.None? ==> !Call(c, s1, q, h, now).outcome.CacheHit?
  {
    assert LookUp(c, s1, q) == LookUp(c, s2, q);
  }

  /** Every accepted settlement overwrites a configured store with the whole table. */
  lemma SettleMirrorsTable<P, R, H>(c: Config<P, R>, s: State<P, R, H>, q: P, response: R, now: nat)
    requires s.mirror.Mirrored?
    requires Accepts(c, response)
    ensures var t := Settle(c, s, q, response, now);
            t.mirror == Mirrored(Some(t.cache))
  {
  }

  /** An expired persisted pair is not found by `indexOf` in the in-memory
      table, so `splice(-1, 1)` removes the LAST in-memory pair, whatever it
      is, while the store keeps the expired pair: the next call at the same
      instant lands on it again and removes one more. */
  lemma PersistedExpiryDropsLastPair<P, R, H>(c: Config<P, R>, s: State<P, R, H>, q: P, h: H, now: nat)
    requires LookUp(c, s, q).Persisted?
    requires Expired(c, LookUp(c, s, q).pair, now)
    requires |s.cache| > 0
    ensures var r := Call(c, s, q, h, now);
            && !r.outcome.CacheHit?
            && r.state.cache == s.cache[..|s.cache| - 1]
            && r.state.mirror == s.mirror
            && LookUp(c, r.state, q) == LookUp(c, s, q)
  {
    var r := Call(c, s, q, h, now);
    assert r.state.mirror == s.mirror;
  }

  /** Sliding renewal of a persisted pair restamps only the deserialized copy:
      the store keeps the original time, so a pair served at `t1` still
      expires by its original age at `t2`, even when `t2` is within `maxAge` of `t1`. */
  lemma PersistedRenewalIsLost<P, R, H>(c: Config<P, R>, s: State<P, R, H>, q: P, h: H, t1: nat, t2: nat)
    requires c.sliding
    requires LookUp(c, s, q).Persisted?
    requires CacheServes(c, s, q, t1)
    requires Expired(c, LookUp(c, s, q).pair, t2)
    ensures Call(c, s, q, h, t1).outcome.CacheHit?
    ensures !Call(c, Call(c, s, q, h, t1).state, q, h, t2).outcome.CacheHit?
  {
    assert Call(c, s, q, h, t1).state == s;
  }

  /** A concrete instance of the lost renewal: maxAge 1500 and sliding, a
      pair saved at time 0 and served at 1000 is gone at 2000, although an
      in-memory pair renewed at 1000 would still be served at 2000. */
  lemma PersistedRenewalExample()
    ensures var c: Config<int, int> := Config(DefaultResolver, None, 1500, true, 0, false);
            var s: State<int, int, int> := State([], [], Mirrored(Some([CachePair(7, 70, Some(0))])));
            && Call(c, s, 7, 0, 1000).outcome == CacheHit(70, false)
            && Call(c, Call(c, s, 7, 0, 1000).state, 7, 0, 2000).outcome == Invoke(0)
  {
    var c: Config<int, int> := Config(DefaultResolver, None, 1500, true, 0, false);
    var s: State<int, int, int> := State([], [], Mirrored(Some([CachePair(7, 70, Some(0))])));
    assert Keys([CachePair(7, 70, Some(0))]) == [7];
    assert FirstPersisted(c, s, 7, 0);
    assert LookUp(c, s, 7) == Persisted(CachePair(7, 70, Some(0)));
    PersistedRenewalIsLost(c, s, 7, 0, 1000, 2000);
  }
}

=== FILE: scenarios.dfy ===
/** Concrete runs of the engine that follow the repository's own test
    narratives, with the producer `f(p) = p` and string arguments. */
module Scenarios {
  import opened Wrappers
  import opened Arrays
  import opened CacheState
  import opened Engine
  import opened Bounds
  import Coalescing

  /** The call site of the eviction tests: `maxCacheCount` 5 and nothing else. */
  const CountFive: Config<string, string> := Config(DefaultResolver, None, 0, false, 5, false)

  /** The pair a settlement of `p` stores when no age limit is configured. */
  function Entry(p: string): CachePair<string, string>
  {
    CachePair(p, p, None)
  }

  /** Settling `p` with the producer's answer `p`. */
  function Put(c: Config<string, string>, s: State<string, string, nat>, p: string): State<string, string, nat>
  {
    Settle(c, s, p, p, 0)
  }

  /** A call site without a store, nothing in flight, and the given table. */
  function Table(cache: seq<CachePair<string, string>>): State<string, string, nat>
  {
    State(cache, [], Unmirrored)
  }

  /** Below five pairs, a settlement appends. */
  lemma PutAppends(cache: seq<CachePair<string, string>>, p: string)
    requires |cache| < 5
    ensures Put(CountFive, Table(cache), p) == Table(cache + [Entry(p)])
  {
    EvictsOnlyWhenFull(CountFive, Table(cache), p, p, 0);
  }

  /** At five pairs, a settlement drops the oldest and appends. */
  lemma PutEvicts(cache: seq<CachePair<string, string>>, p: string)
    requires |cache| == 5
    ensures Put(CountFive, Table(cache), p) == Table(cache[1..] + [Entry(p)])
  {
    EvictsOnlyWhenFull(CountFive, Table(cache), p, p, 0);
  }

  /** Applying `step` to each of `ps` in order. */
  function Fold(step: (State<string, string, nat>, string) -> State<string, string, nat>, s: State<string, string, nat>, ps: seq<string>): State<string, string, nat>
    decreases |ps|
  {
    if |ps| == 0 then s else Fold(step, step(s, ps[0]), ps[1..])
  }

  /** Settling each of `ps` in order with the producer's answer. */
  function PutAll(c: Config<string, string>, s: State<string, string, nat>, ps: seq<string>): State<string, string, nat>
  {
    Fold((t, p) => Put(c, t, p), s, ps)
  }

  /** The pairs those settlements store. */
  function Entries(ps: seq<string>): seq<CachePair<string, string>>
  {
    seq(|ps|, i requires 0 <= i < |ps| => Entry(ps[i]))
  }

  /** The pairs of a non-empty argument list: the first one's, then the rest's. */
  lemma EntriesCons(ps: seq<string>)
    requires |ps| > 0
    ensures Entries(ps) == [Entry(ps[0])] + Entries(ps[1..])
  {
  }

  /** Steps that append to a table with room, applied while it has room, append in order. */
  lemma {:induction false} AppendingStepsAppend(step: (State<string, string, nat>, string) -> State<string, string, nat>, cache: seq<CachePair<string, string>>, ps: seq<string>)
    requires |cache| + |ps| <= 5
    requires forall t: seq<CachePair<string, string>>, p: string :: |t| < 5 ==> step(Table(t), p) == Table(t + [Entry(p)])
    ensures Fold(step, Table(cache), ps) == Table(cache + Entries(ps))
    decreases |ps|
  {
    if |ps| > 0 {
      var next := cache + [Entry(ps[0])];
      AppendingStepsAppend(step, next, ps[1..]);
      EntriesCons(ps);
      assert next + Entries(ps[1..]) == cache + Entries(ps);
    }
  }

  /** While the table has room, settlements append their pairs in call order. */
  lemma SettlementsAppend(cache: seq<CachePair<string, string>>, ps: seq<string>)
    requires |cache| + |ps| <= 5
    ensures PutAll(CountFive, Table(cache), ps) == Table(cache + Entries(ps))
  {
    forall t: seq<CachePair<string, string>>, p: string | |t| < 5
      ensures Put(CountFive, Table(t), p) == Table(t + [Entry(p)])
    {
      PutAppends(t, p);
    }
    AppendingStepsAppend((t, p) => Put(CountFive, t, p), cache, ps);
  }

  /** A sixth distinct argument evicts the oldest pair and keeps the other four in order. */
  lemma SixthSettlementEvictsFirst()
    ensures Put(CountFive, Table(FiveTable), "test6") == Table(SixTable)
  {
    PutEvicts(FiveTable, "test6");
    assert FiveTable[1..] + [Entry("test6")] == SixTable;
  }

  /** A seventh distinct argument in turn evicts `test2`. */
  lemma SeventhSettlementEvictsSecond()
    ensures Put(CountFive, Table(SixTable), "test7") == Table(SevenTable)
  {
    PutEvicts(SixTable, "test7");
    assert SixTable[1..] + [Entry("test7")] == SevenTable;
  }

  /** On a table without a store, a call whose first
      matching pair carries no time is served that pair's response. */
  lemma UndatedMatchIsServed<P, R, H>(c: Config<P, R>, s: State<P, R, H>, q: P, h: H, now: nat, i: nat)
    requires s.mirror.Unmirrored? && i < |s.cache| && s.cache[i].created.None?
    requires FirstMatch(c.resolver, Keys(s.cache), q) == Some(i)
    ensures Call(c, s, q, h, now).outcome == CacheHit(s.cache[i].response, c.async)
  {
    assert LookUp(c, s, q) == InMemory(i);
  }

  /** On a table without a store or pending entries, a call that matches no pair invokes the producer. */
  lemma UnmatchedCallInvokes<P, R, H>(c: Config<P, R>, s: State<P, R, H>, q: P, h: H, now: nat)
    requires s.mirror.Unmirrored? && s.pending == []
    requires FirstMatch(c.resolver, Keys(s.cache), q) == None
    ensures Call(c, s, q, h, now).outcome == Invoke(h)
  {
    assert LookUp(c, s, q) == Miss;
  }

  /** The tables the fifth, sixth and seventh settlements leave. */
  const FiveTable: seq<CachePair<string, string>> :=
    [Entry("test1"), Entry("test2"), Entry("test3"), Entry("test4"), Entry("test5")]
  const SixTable: seq<CachePair<string, string>> :=
    [Entry("test2"), Entry("test3"), Entry("test4"), Entry("test5"), Entry("test6")]
  const SevenTable: seq<CachePair<string, string>> :=
    [Entry("test3"), Entry("test4"), Entry("test5"), Entry("test6"), Entry("test7")]

  /** Before the sixth settlement `test1` is served from the cache. */
  lemma FirstArgumentServedBeforeEviction(h: nat, now: nat)
    ensures Call(CountFive, Table(FiveTable), "test1", h, now).outcome == CacheHit("test1", false)
  {
    assert Keys(FiveTable)[0] == "test1";
    UndatedMatchIsServed(CountFive, Table(FiveTable), "test1", h, now, 0);
  }

  /** After the seventh settlement the evicted `test2` invokes the producer again. */
  lemma EvictedArgumentMisses(h: nat, now: nat)
    ensures Call(CountFive, Table(SevenTable), "test2", h, now).outcome == Invoke(h)
  {
    assert Keys(SevenTable) == ["test3", "test4", "test5", "test6", "test7"];
    UnmatchedCallInvokes(CountFive, Table(SevenTable), "test2", h, now);
  }

  /** After the sixth settlement `test2` is still served from the cache. */
  lemma RetainedArgumentServed(h: nat, now: nat)
    ensures Call(CountFive, Table(SixTable), "test2", h, now).outcome == CacheHit("test2", false)
  {
    assert Keys(SixTable)[0] == "test2";
    UndatedMatchIsServed(CountFive, Table(SixTable), "test2", h, now, 0);
  }

  /** A rerouting resolver that ignores the stored arguments and answers
      with a flag carried by the incoming ones. */
  const Reroute: Config<(string, bool), string> :=
    Config((stored: (string, bool), incoming: (string, bool)) => incoming.1, None, 0, false, 0, false)

  /** The rerouting call site before its first call. */
  const RerouteStart: State<(string, bool), string, nat> := State([], [], Unmirrored)

  /** With the rerouting resolver, which never matches an unflagged call,
      the failure of the first of two unflagged invocations removes the
      second one's pending entry and keeps its own. */
  lemma RerouteFailureDropsLaterEntry(ha: nat, hb: nat)
    ensures var r1 := Call(Reroute, RerouteStart, ("a", false), ha, 0);
            var r2 := Call(Reroute, r1.state, ("b", false), hb, 0);
            && r1.outcome == Invoke(ha)
            && r2.outcome == Invoke(hb)
            && Fail(Reroute, r2.state, ("a", false)).pending == [CachePair(("a", false), ha, Some(0))]
  {
    Coalescing.FinalizeDropsLaterEntry(Reroute, RerouteStart, ("a", false), ("b", false), ha, hb, 0);
  }

  /** On a call site with no count, no store and nothing in flight, an
      accepted settlement leaves a table holding just its own pair. */
  lemma SettleOnIdleSite<P, R, H>(c: Config<P, R>, s: State<P, R, H>, q: P, response: R, now: nat)
    requires c.maxCacheCount <= 1 && Accepts(c, response)
    requires |s.cache| <= 1 && s.pending == [] && s.mirror.Unmirrored?
    ensures Settle(c, s, q, response, now) == State([CachePair(q, response, Stamp(c, now))], [], Unmirrored)
  {
    DefaultKeepsOnlyLatest(c, s, q, response, now);
  }

  /** On such a call site, two accepted settlements in a row leave only the later pair. */
  lemma TwoSettlementsKeepLatest<P, R, H>(c: Config<P, R>, s: State<P, R, H>, p1: P, v1: R, p2: P, v2: R, now: nat)
    requires c.maxCacheCount <= 1 && Accepts(c, v1) && Accepts(c, v2)
    requires |s.cache| <= 1 && s.pending == [] && s.mirror.Unmirrored?
    ensures Settle(c, Settle(c, s, p1, v1, now), p2, v2, now) == State([CachePair(p2, v2, Stamp(c, now))], [], Unmirrored)
  {
    SettleOnIdleSite(c, s, p1, v1, now);
    SettleOnIdleSite(c, Settle(c, s, p1, v1, now), p2, v2, now);
  }

  /** The rerouting call site after settling `test1` and then `test2`: the table holds only the latter. */
  lemma RerouteTable()
    ensures Settle(Reroute, Settle(Reroute, RerouteStart, ("test1", false), "test1", 0), ("test2", false), "test2", 0)
            == State([CachePair(("test2", false), "test2", None)], [], Unmirrored)
  {
    TwoSettlementsKeepLatest(Reroute, RerouteStart, ("test1", false), "test1", ("test2", false), "test2", 0);
  }

  /** With the rerouting resolver, on the table left by settling `test1` and
      then `test2` (see `RerouteTable`), a flagged call is served the most
      recent response whatever its primary argument, and an unflagged call
      goes to the producer. */
  lemma RerouteScenario(h: nat)
    ensures var s: State<(string, bool), string, nat> := State([CachePair(("test2", false), "test2", None)], [], Unmirrored);
            && Call(Reroute, s, ("test3", true), h, 0).outcome == CacheHit("test2", false)
            && Call(Reroute, s, ("test3", false), h, 0).outcome == Invoke(h)
  {
    var c := Reroute;
    var s: State<(string, bool), string, nat> := State([CachePair(("test2", false), "test2", None)], [], Unmirrored);
    assert Keys(s.cache) == [("test2", false)];
    assert LookUp(c, s, ("test3", true)) == InMemory(0);
    assert LookUp(c, s, ("test3", false)) == Miss;
  }

  /** The rerouting resolver never matches an unflagged call against its own
      pending entry, so two equal unflagged calls at the same instant each
      invoke the producer: request coalescing needs a resolver that matches
      arguments against themselves. */
  lemma UnflaggedCallsAreNotCoalesced(h1: nat, h2: nat)
    ensures var r1 := Call(Reroute, RerouteStart, ("test3", false), h1, 0);
            && r1.outcome == Invoke(h1)
            && Call(Reroute, r1.state, ("test3", false), h2, 0).outcome == Invoke(h2)
  {
    var q := ("test3", false);
    var r1 := Call(Reroute, RerouteStart, q, h1, 0);
    assert r1.state == State([], [CachePair(q, h1, Some(0))], Unmirrored);
    assert Keys(r1.state.pending) == [q];
    assert LookUp(Reroute, r1.state, q) == Miss;
    assert !InFlight(Reroute, r1.state, q);
  }
}

=== FILE: wrappers.dfy ===
/** An optional value, for lookups that may find nothing and options that may be unset. */
module Wrappers {

  datatype Option<+T> = None | Some(value: T)
}
